=== FILE: README.md ===
# jutils data utilities and step pipeline, in Dafny

This project models two parts of `jutils`:

- `DataUtils` (`jutils/data.py`) locates the files of one data project from a data folder and an input file name:
  - the raw input is `<folder>/raw/<name>`;
  - the validation and train/test splits are in `<folder>/interim`;
  - their processed versions are in `<folder>/processed`;
  - the model artefact is `models` beside the data folder.

  It reads the data, the two processed splits and the model lazily. Each is cached in its own slot on first read. The model setter writes the artefact to disk.
- `Procesamiento` (`tests/test_procesos.py`) is a chain of four steps on an integer `a`:
  - `paso1 = 4a`;
  - `paso2 = paso1 + 6`;
  - `paso3 = paso2²`;
  - `paso4 = paso3 - 10`.

  Each step returns a one-entry mapping keyed by its own name. The accessors `paso1`…`paso4` take a force map, default the step's flag with `setdefault`, and run the step with the pipeline's `a`.

Files:

- `results.dfy` (`Results`): `Option` and a failure-compatible `Result`.
- `paths.dfy` (`Paths`): the part of POSIX `pathlib` the paths use:
  - `joinpath` and its text parsing;
  - `parent` and `name`;
  - `stem` and `suffix`, which follow the last-dot rule;
  - `with_name` and `with_stem`, which raise on an empty name.
- `data_utils.dfy` (`DataUtils`): the path properties, the caches, `X_names` and `y_names`. The filesystem is a `Disk` value, a map from each path to the one decoded file stored there, a table or a model. A read of a missing path, or of a file of the other kind, fails.
- `procesos.dfy` (`Procesos`): the steps, the chain, the accessors and the test scenario.

Several path edge cases are stated as lemmas:

- A file name ending in a dot, such as `data.`, gives the processed file `data_processed._validation`. The second tag lands before the first, because the first tag turned the trailing dot into a suffix.
- A file name holding a folder, such as `sub/f.csv`, puts the processed file in `interim/processed` rather than in `processed`.
- The name `/` makes the derived paths fail with pathlib's empty-name error.

## Model

| member | source | states |
|---|---|---|
| Paths.SplitParts | jutils/data.py:60 | parsing a `joinpath` argument yields only valid parts (non-empty, not `.`, no `/`); a single valid part parses to itself |
| Paths.JoinPath | jutils/data.py:60 | an argument starting with `/` replaces the path; any other argument keeps the root flag and appends exactly the argument's parsed parts; a well-formed path stays well-formed |
| Paths.SplitJoinRoundTrip | jutils/data.py:60 | parsing the text of a list of valid parts gives back exactly those parts |
| Paths.JoinPathPart | jutils/data.py:76-77 | joining a single part appends it; it is then the name, and the parent is the original path |
| Paths.Parent | jutils/data.py:76 | `parent` drops the last part and keeps the root; a path with no parts is its own parent |
| Paths.Name | jutils/data.py:75 | `name` is the last part; for a well-formed path it is empty exactly when the path has no parts |
| Paths.Suffix | jutils/data.py:65 | the suffix is a tail of the name: empty, or a dot plus at least one character, shorter than the name |
| Paths.SuffixAtLastDot | jutils/data.py:65 | (for `suffix`) there is a suffix exactly when the last dot is neither the first nor the last character, and it is the tail from that dot |
| Paths.StemSuffixSplit | jutils/data.py:65 | (for `stem` and `suffix`) `stem + suffix` is the name; the suffix is empty or a dot plus at least one dot-free character; a non-empty suffix implies a non-empty stem |
| Paths.TaggedSplit | jutils/data.py:74 | appending a dot-free tag to the stem keeps the suffix exactly when the name does not end with a dot; otherwise the suffix becomes `.` + tag |
| Paths.WithName | jutils/data.py:65 | `with_name` succeeds iff the path has a name and the new name is one part; it then keeps the parent and sets the name; an empty name gives the empty-name error |
| Paths.WithStem | jutils/data.py:65 | `with_stem` succeeds iff the path has a name and the new stem plus the old suffix is one part; the parent is kept and the name is the new stem plus the old suffix |
| Paths.WithStemParts | jutils/data.py:74 | a successful `with_stem` keeps the root and every part but the last |
| DataUtils.New | jutils/data.py:9-16 | a new object stores the data folder and the input file name it was given, and has all four cache slots empty |
| DataUtils.InputFilePath | jutils/data.py:58-60 | the input path is the data folder plus `raw` plus the parsed parts of the file name, with the folder's root; an absolute file name replaces the whole path |
| DataUtils.InterimPath | jutils/data.py:64 | the interim path is the data folder plus `interim` plus the parsed parts of the file name; an absolute file name replaces the whole path |
| DataUtils.RawSplitPath | jutils/data.py:62-70 | the split path exists iff the interim path has a name and the tagged name is one part; it then sits in the interim path's folder, under the tagged name |
| DataUtils.RawValidationPath | jutils/data.py:62-65 | the same, with the tag `_validation` |
| DataUtils.RawTrainTestPath | jutils/data.py:67-70 | the same, with the tag `_train_test` |
| DataUtils.ProcessedSplitName | jutils/data.py:74-81 | it succeeds only if the split path does; given that, it succeeds iff the twice-tagged name is one part; it keeps the folder and tags the name with `_processed` |
| DataUtils.Relocate | jutils/data.py:75-84 | for a file with a valid name, the name is kept; moving into a valid folder name puts the file in that folder, beside the old folder |
| DataUtils.TransformedSplitPath | jutils/data.py:72-84 | it succeeds iff the `_processed` step does; the file is named with both tags and sits in a `processed` folder whose parent is the split folder's parent |
| DataUtils.TransformedValidationPath | jutils/data.py:72-77 | the processed validation file is named `<name>` tagged `_validation` then `_processed`, in a folder named `processed` |
| DataUtils.TransformedTrainTestPath | jutils/data.py:79-84 | the same, with `_train_test` |
| DataUtils.ModelsPath | jutils/data.py:86-89 | the models path is the data folder's parent plus the single part `models`, with the folder's root |
| DataUtils.ModelsDirParts | jutils/data.py:88 | `models/` parses to the single part `models`: the trailing slash is dropped |
| DataUtils.RawSplitIn | jutils/data.py:63-65 | a file `<folder>/<name>` gets its split file `<folder>/<name with tag>`, and that name is a valid part |
| DataUtils.RawSplitPathShape | jutils/data.py:67-70 | for a one-part name, the split file is `<data folder>/interim/<stem><tag><suffix>` |
| DataUtils.ProcessedSplitIn | jutils/data.py:74 | adding `_processed` to the split file keeps its folder and tags its name a second time |
| DataUtils.RelocateParts | jutils/data.py:75-77 | moving `<grand>/<mid>/<name>` into `dir` gives `<grand>/<dir>/<name>` with the same root |
| DataUtils.TransformedSplitIn | jutils/data.py:79-84 | a file `<grand>/<mid>/<name>` gives the processed file `<grand>/processed/<name tagged twice>` |
| DataUtils.TransformedSplitPathIs | jutils/data.py:72-77 | for a one-part name, the processed file is `<data folder>/processed/<name tagged with the split tag and then with _processed>` |
| DataUtils.TransformedSplitPathShape | jutils/data.py:72-84 | for a one-part name not ending in a dot, the processed file is `<data folder>/processed/<stem><tag>_processed<suffix>` |
| DataUtils.TaggedValid | jutils/data.py:65 | a tagged valid name is still a valid part |
| DataUtils.TaggedTwice | jutils/data.py:74 | tagging twice appends both tags to the stem and keeps the suffix, and pathlib reads it back that way |
| DataUtils.SplitNamesDiffer | jutils/data.py:63-70 | the validation and train/test names differ, both before and after `_processed` is added |
| Paths.TaggedInjective | jutils/data.py:74 | tagging names of equal length with the last dot at the same place is injective |
| DataUtils.DerivedPathsDistinct | jutils/data.py:59-84 | for a one-part name, all four derived paths exist, and the input file, the two split files and the two processed files are five pairwise different paths |
| DataUtils.DerivedPathsAt | jutils/data.py:59-84 | for a one-part name, the five paths hold `raw`, `interim`, `interim`, `processed`, `processed` at the same depth, and the two files sharing a folder have different names |
| DataUtils.NestedSplitPathIs | jutils/data.py:72-77 | for a name that parses to `dir/name`, the processed file lands in `<data folder>/interim/processed` |
| DataUtils.SplitTwoParts | jutils/data.py:64 | the text `<dir>/<name>` of two valid parts parses to exactly those parts and is not absolute |
| DataUtils.NestedInputSplitPath | jutils/data.py:72-84 | for the input name `<dir>/<name>`, the processed split file is `<data folder>/interim/processed/<name tagged twice>` |
| DataUtils.NestedInputExample | jutils/data.py:72-77 | for `sub/f.csv`, the processed validation file is `interim/processed/f_validation_processed.csv` under the data folder |
| DataUtils.CsvName | jutils/data.py:74 | `f.csv` tagged `_validation` then `_processed` is `f_validation_processed.csv` |
| DataUtils.TrailingDotExample | jutils/data.py:72-77 | for the name `data.`, the processed validation file is `processed/data_processed._validation` |
| DataUtils.TrailingDotName | jutils/data.py:74 | tagging `data.` with `_validation` and then with `_processed` gives `data_processed._validation` |
| DataUtils.RootNameExample | jutils/data.py:62-65 | for the name `/`, the split path and the processed path both fail with the empty-name error on the path `/` |
| DataUtils.ModelsPathShape | jutils/data.py:86-89 | the models path is `models` under the data folder's parent; it does not depend on the file name, and it is a sibling of the data folder |
| DataUtils.Cached | jutils/data.py:28-30 | a full slot is returned without loading; an empty slot takes a successful load and stays empty on a failed one |
| DataUtils.CachedReadOnce | jutils/data.py:44-46 | after a successful read, a second read returns the same value and state whatever the second load would give |
| DataUtils.LoadData | jutils/data.py:91-93 | reading succeeds iff the file at the path is a table, and then returns that table; a missing file gives the not-found error |
| DataUtils.SaveData | jutils/data.py:95-97 | saving puts the table at the path, replacing any file there, and keeps every other file |
| DataUtils.SaveLoadRoundTrip | jutils/data.py:91-97 | reading a path just written returns the table written |
| DataUtils.LoadFrom | jutils/data.py:36-46 | reading a derived path succeeds iff the path derivation succeeded and the file there is a table, and then returns that table; a failed derivation is reported as a read error carrying its cause |
| DataUtils.GetData | jutils/data.py:26-30 | a cached table is returned as is; otherwise the input file is read, and a success is cached |
| DataUtils.DataReadTwice | jutils/data.py:26-30 | a second `data` read returns the first result even if the disk changed |
| DataUtils.SetData | jutils/data.py:32-34 | the setter puts the value assigned, a table or `None`, in the data slot and changes nothing else |
| DataUtils.SetThenGetData | jutils/data.py:26-34 | after the setter, the getter returns the table set without reading, and the other slots are unchanged |
| DataUtils.SetNoneThenGetData | jutils/data.py:26-34 | after `data = None`, the getter reads the input file again: it succeeds iff a table is stored there, and returns that table |
| DataUtils.GetTrainTestData | jutils/data.py:36-40 | a cached table is returned; otherwise the processed train/test file is read, and a success is cached |
| DataUtils.GetValidationData | jutils/data.py:42-46 | a cached table is returned; otherwise the processed validation file is read, and a success is cached |
| DataUtils.SplitDataReadTwice | jutils/data.py:36-46 | a second split read returns the first result even if the disk changed |
| DataUtils.GetModel | jutils/data.py:48-52 | a cached model is returned; otherwise the read succeeds iff the file at the models path is a model, and a success is cached |
| DataUtils.SetModel | jutils/data.py:54-56 | the setter puts the model at the models path, replacing any file there, and keeps every other file |
| DataUtils.ModelSetterKeepsCache | jutils/data.py:48-56 | after the setter, the getter still returns a previously cached model; with an empty slot it returns the model written |
| DataUtils.OneFilePerPath | jutils/data.py:48-56 | one path holds one file: a table saved at the models path replaces the model, so an uncached model read then fails; a model written over the input file makes an uncached `data` read fail |
| DataUtils.GettersTouchOwnSlot | jutils/data.py:26-52 | each getter changes no slot but its own |
| DataUtils.YNames | jutils/data.py:22-24 | the target column is `precio_kg` |
| DataUtils.ColumnsWithout | jutils/data.py:19-20 | the result holds each column other than the target, each once, and nothing else |
| DataUtils.XNames | jutils/data.py:18-20 | `X_names` fails iff reading `data` fails, with the very error that read raised; otherwise it holds exactly the data's columns other than `precio_kg`, each once, and leaves the object as the `data` read does |
| Procesos.Upstream | tests/test_procesos.py:48-51 | only `Paso1` has no predecessor, and every predecessor sits one place earlier in the chain |
| Procesos.RunBody | tests/test_procesos.py:8-41 | a body fails iff its parameter is missing, naming that parameter; otherwise it returns exactly one key, its own step name, with the value of its arithmetic |
| Procesos.ChainIsLinear | tests/test_procesos.py:44-51 | each step's parameter is its predecessor's output key; `Paso1` is the only step without a predecessor; step names are distinct; `a` is no step's output |
| Procesos.BodyOfClosedForm | tests/test_procesos.py:8-41 | each body applied to its predecessor's closed form (to `a` for the first) gives its own closed form |
| Procesos.ChainComputesClosedForm | tests/test_procesos.py:86-90 | running the bodies from `Paso1` up to step `s` computes `4a`, `4a+6`, `(4a+6)²` and `(4a+6)²-10` |
| Procesos.RunUpstream | tests/test_procesos.py:48-51 | the first step sees its inputs unchanged; a later step's inputs are available iff its unforced predecessor runs, and they keep every input key |
| Procesos.Run | tests/test_procesos.py:57 | a successful run returns the one-entry mapping of its own step name, unless it is an unforced call that returned the step's stored result |
| Procesos.RunClosedForm | tests/test_procesos.py:93-115 | from a memo of closed-form results, with `a` given, any run of any step, forced or not, returns `{key: closed form}`, and the memo keeps only closed-form results |
| Procesos.UpstreamClosedForm | tests/test_procesos.py:48-51 | under the same conditions, a step's body receives its parameter: `a` for the first step, the predecessor's closed form for the others |
| Procesos.ConsistentStore | tests/test_procesos.py:93-115 | storing a closed-form result keeps the memo consistent |
| Procesos.RunMissingA | tests/test_procesos.py:9 | without `a` and with nothing memoised, every step fails, naming `a`, and stores nothing |
| Procesos.NewProcesamiento | tests/test_procesos.py:45-52 | a new pipeline stores its `cache` flag, its path, `a` and its force map as given, and has no step run |
| Procesos.SetDefault | tests/test_procesos.py:57 | `setdefault` adds only the key; existing entries are unchanged; the returned flag is the stored one, and the default when the key was absent |
| Procesos.SetDefaultIdempotent | tests/test_procesos.py:57 | a second `setdefault` on the same key changes nothing and returns the same flag |
| Procesos.Call | tests/test_procesos.py:54-80 | an accessor given a map separate from the constructor's keeps the pipeline's `a`, its `cache` flag, its path and its constructor map |
| Procesos.CallShared | tests/test_procesos.py:94-97 | an accessor given the constructor's own map keeps the pipeline's `a`, `cache` flag and path, and writes the defaulted flag into the pipeline's map: its keys gain `pasoN`, existing flags are kept, and the result and memo are those of a separate copy |
| Procesos.FreshTestPipeline | tests/test_procesos.py:91-97 | a test pipeline built fresh on the test's map, with `a = 5`, returns the closed form at 5 from any accessor, and its map gains the step's false flag |
| Procesos.TestSharedCall | tests/test_procesos.py:91-97 | one test call with the pipeline built on the test's map returns the closed form at 5, and the pipeline's map gains a false flag for the step |
| Procesos.NoneIsEmptyMap | tests/test_procesos.py:54-56 | passing `None` behaves as passing `{}`, and the map ends up holding only this step's false flag |
| Procesos.AccessorForces | tests/test_procesos.py:54-80 | after `pasoN`, the map's keys are the old keys plus `pasoN`; existing flags are kept, and an absent `pasoN` flag becomes false |
| Procesos.AccessorClosedForm | tests/test_procesos.py:54-80 | from a memo of closed-form results, every accessor returns `{pasoN: closed form of the pipeline's a}` and keeps the memo consistent |
| Procesos.TestCall | tests/test_procesos.py:93-97 | one test call with `a = 5` returns the closed form at 5; the test map keeps its two entries and gains a false flag for the step |
| Procesos.TestScenario | tests/test_procesos.py:93-115 | the four tests in order `paso1`, `paso2`, `paso4`, `paso3`, each continuing from the memo the previous one left, return the closed forms at 5, and each test's map keeps its entries and gains only its own flag |
| Procesos.TestForcesHoldFirstAndLast | tests/test_procesos.py:91 | the test map already holds false flags for `paso1` and `paso4` |
| Procesos.ExpectedValues | tests/test_procesos.py:84-90 | the keys are `paso1`…`paso4`; the closed forms at 5 are 20, 26, 676 and 666; and the chain gives those same values |

## Left out

- CSV and joblib encodings (jutils/data.py:51, 56, 93, 97) are not modelled. A file on the `Disk` holds the decoded table or model, and each path holds one file. `SaveLoadRoundTrip` therefore does not cover CSV type inference, such as numbers read back from text.
- `DataUtils.LoadData`, `DataUtils.GetModel`: reading a file of the other kind (a CSV table where a model is expected, or the other way round) is modelled as a `WrongFormat` failure. What `pandas` or `joblib` would actually make of such bytes is not modelled.
- `models_path` is a folder name (`models/`). The model treats it as the key under which the artefact is stored. What `joblib` does when given a directory is outside the model.
- `.copy()` in the split getters (jutils/data.py:40, 46) is covered by value semantics: every returned `Table` is an independent value. The aliasing of the `data` getter, which returns the cached object itself, is not modelled.
- `DataUtils.XNames`: the order of `list(set(...))` is unspecified in Python. The model fixes it to first appearance, and its contract states only membership and the absence of duplicates. The unused `_X_names` slot (jutils/data.py:12) is not modelled.
- Paths are POSIX only. Windows paths, the `//` root, and `..` resolution are not modelled; pathlib itself keeps `..` as a part, as the model does. `with_stem` exists only from Python 3.9, although setup.py advertises 3.6.
- `Paths.Suffix`: follows the last-dot rule of pathlib in Python 3.9 to 3.13, where a trailing dot is no suffix. A version that counts a trailing dot as a suffix would change the `data.` example.
- `Paths.WithStem`: does not reject an empty stem on a name with a suffix, as newer pathlib versions do. Here the new stem always ends with a non-empty tag, so the case does not arise.
- `Paths.Stem` carries no contract of its own; its properties are stated by `Paths.StemSuffixSplit` and `Paths.TaggedSplit`.
- `jutils/procesos.py`, which holds the step executor and pipeline base class, is not part of this model. `Procesos.Run` assumes one reading of it:
  - an unforced step with a stored result returns that result;
  - otherwise the predecessor runs unforced and its outputs are merged over the inputs.

  Only the results the tests assert are proved, and they hold for any memo of closed-form results. Nothing is claimed about what the memo keeps, about short-circuiting, about idempotence, or about staleness after a forced recomputation.
- `Procesos.RunClosedForm`: proved only from a memo whose stored results are closed forms for the same `a`. A memo reloaded from a pickle written with another `a` would return stale values, and no claim is made about it.
- Snapshot persistence (`save_cache`, `from_cache`, the `cache` and `cache_path` arguments) is I/O and is not modelled.
- `Procesos.TestScenario`: each test reloads the pipeline with `from_cache` (tests/test_procesos.py:94-96). The scenario treats the pickle round trip between tests as the identity on the memo. `Procesos.TestCall` is the per-test statement, and it holds for any reloaded memo of closed-form results.
- `print`, `sleep` and the base-class `_run` call in each step (tests/test_procesos.py:10-13) are side effects with no result, so they are left out.
- The constructor's `force_execution` map (tests/test_procesos.py:52) is stored but never read, and the model stores it the same way.
- `Procesos.Call`: treats the caller's map as separate from the constructor's. The tests pass the same dict to both (tests/test_procesos.py:94-97), so `setdefault` also changes the pipeline's stored map; that case is `Procesos.CallShared`. When `from_cache` returns a pickled pipeline, its map is a copy and `Procesos.Call` applies. Python object identity is not modelled beyond these two cases.
- `a` is modelled as a Python `int`, with unbounded integers. The tests use no other type.

=== FILE: data_utils.dfy ===
/** `DataUtils`: where the data of one project lives, relative to a data
    folder and an input file name, and a lazily filled cache of what was
    read from there.

    The filesystem is a `Disk` value mapping each path to the one file
    stored there, a table or a model artefact; reading is a lookup that
    fails on a missing path or on a file of the other kind. The CSV and
    joblib encodings are not modelled: a file holds the decoded value. */
module DataUtils {
  import opened Results
  import opened Paths

  /** A data frame: its column labels and its rows of cells. */
  datatype Table = Table(columns: seq<string>, rows: seq<seq<string>>)

  /** A trained model artefact, opaque to this code. */
  datatype Model = Model(blob: seq<int>)

  /** A file: a table written by `to_csv` or a model written by `joblib.dump`. */
  datatype File = TableFile(table: Table) | ModelFile(model: Model)

  /** The filesystem: at most one file per path, so writing a table where a
      model was stored replaces the model, and the other way round. */
  datatype Disk = Disk(files: map<Path, File>)

  datatype IoError =
    | FileNotFound(path: Path)
    | WrongFormat(path: Path)
    | BadPath(cause: PathError)

  /** Whether a table is stored at `path`. */
  predicate HoldsTable(disk: Disk, path: Path) {
    path in disk.files && disk.files[path].TableFile?
  }

  /** Whether a model artefact is stored at `path`. */
  predicate HoldsModel(disk: Disk, path: Path) {
    path in disk.files && disk.files[path].ModelFile?
  }

  /** The object's state: its two constructor arguments and the four cache
      slots, `None` until first read. */
  datatype Utils = Utils(
    dataFolder: Path,
    inputFileName: string,
    data: Option<Table>,
    trainTestData: Option<Table>,
    validationData: Option<Table>,
    model: Option<Model>)

  /** The result of a getter: what it returns (or raises) and the object's
      state afterwards. */
  datatype Read<T> = Read(value: Result<T, IoError>, state: Utils)

  const RawDir := "raw"
  const InterimDir := "interim"
  const ProcessedDir := "processed"
  const ModelsDir := "models/"
  const ValidationTag := "_validation"
  const TrainTestTag := "_train_test"
  const ProcessedTag := "_processed"

  /** The folder names are single parts, all different, and the tags are
      non-empty and free of dots and slashes. */
  lemma ConstantsWellFormed()
    ensures ValidPart(RawDir) && ValidPart(InterimDir) && ValidPart(ProcessedDir)
    ensures RawDir != InterimDir && InterimDir != ProcessedDir && RawDir != ProcessedDir
    ensures ValidationTag != "" && '.' !in ValidationTag && '/' !in ValidationTag
    ensures TrainTestTag != "" && '.' !in TrainTestTag && '/' !in TrainTestTag
    ensures ProcessedTag != "" && '.' !in ProcessedTag && '/' !in ProcessedTag
  {
  }

  /** The target column. */
  const YName := "precio_kg"

  /** `DataUtils(data_folder_path, input_file_name)`: every cache starts empty. */
  function New(dataFolder: Path, inputFileName: string): (u: Utils)
    ensures u.dataFolder == dataFolder && u.inputFileName == inputFileName
    ensures u.data.None? && u.trainTestData.None? && u.validationData.None? && u.model.None?
  {
    Utils(dataFolder, inputFileName, None, None, None, None)
  }

  // ---------------------------------------------------------------- paths

  /** `input_file_path`: `<data folder>/raw/<input file name>`, or the file
      name alone when it is absolute. */
  function InputFilePath(u: Utils): (r: Path)
    ensures !Absolute(u.inputFileName) ==> r.rooted == u.dataFolder.rooted
    ensures !Absolute(u.inputFileName) ==> r.parts == u.dataFolder.parts + [RawDir] + SplitParts(u.inputFileName)
    ensures Absolute(u.inputFileName) ==> r.rooted && r.parts == SplitParts(u.inputFileName)
  {
    JoinPathPart(u.dataFolder, RawDir);
    JoinPath(JoinPath(u.dataFolder, RawDir), u.inputFileName)
  }

  /** The input file's path placed under `<data folder>/interim`, before its
      stem is changed (`joinpath('interim', input_file_name)`). */
  function InterimPath(u: Utils): (r: Path)
    ensures !Absolute(u.inputFileName) ==> r.rooted == u.dataFolder.rooted
    ensures !Absolute(u.inputFileName) ==> r.parts == u.dataFolder.parts + [InterimDir] + SplitParts(u.inputFileName)
    ensures Absolute(u.inputFileName) ==> r.rooted && r.parts == SplitParts(u.inputFileName)
  {
    JoinPathPart(u.dataFolder, InterimDir);
    JoinPath(JoinPath(u.dataFolder, InterimDir), u.inputFileName)
  }

  /** `raw_validation_path` and `raw_train_test_path`: the interim copy of the
      input file with `tag` appended to its stem. It fails when the interim
      path has no name, or when the tagged name is not a single part. */
  function RawSplitPath(u: Utils, tag: string): (r: Result<Path, PathError>)
    ensures r.Success? <==> Name(InterimPath(u)) != "" && ValidPart(Tagged(Name(InterimPath(u)), tag))
    ensures r.Success? ==> Parent(r.value) == Parent(InterimPath(u))
    ensures r.Success? ==> Name(r.value) == Tagged(Name(InterimPath(u)), tag)
  {
    var path := InterimPath(u);
    WithStem(path, Stem(Name(path)) + tag)
  }

  function RawValidationPath(u: Utils): (r: Result<Path, PathError>)
    ensures r.Success? <==> Name(InterimPath(u)) != "" && ValidPart(Tagged(Name(InterimPath(u)), ValidationTag))
    ensures r.Success? ==> Parent(r.value) == Parent(InterimPath(u))
    ensures r.Success? ==> Name(r.value) == Tagged(Name(InterimPath(u)), ValidationTag)
  {
    RawSplitPath(u, ValidationTag)
  }

  function RawTrainTestPath(u: Utils): (r: Result<Path, PathError>)
    ensures r.Success? <==> Name(InterimPath(u)) != "" && ValidPart(Tagged(Name(InterimPath(u)), TrainTestTag))
    ensures r.Success? ==> Parent(r.value) == Parent(InterimPath(u))
    ensures r.Success? ==> Name(r.value) == Tagged(Name(InterimPath(u)), TrainTestTag)
  {
    RawSplitPath(u, TrainTestTag)
  }

  /** The split file with `_processed` appended to its stem, still in the
      split file's folder. */
  function ProcessedSplitName(u: Utils, tag: string): (r: Result<Path, PathError>)
    ensures r.Success? ==> RawSplitPath(u, tag).Success?
    ensures r.Success? ==> Parent(r.value) == Parent(InterimPath(u))
    ensures r.Success? ==> Name(r.value) == Tagged(Tagged(Name(InterimPath(u)), tag), ProcessedTag)
    ensures RawSplitPath(u, tag).Success? ==>
              (r.Success? <==> ValidPart(Tagged(Tagged(Name(InterimPath(u)), tag), ProcessedTag)))
  {
    var raw :- RawSplitPath(u, tag);
    WithStem(raw, Stem(Name(raw)) + ProcessedTag)
  }

  /** The file `path` moved, under the same name, into the folder `dir`
      beside its own folder: `path.parent.parent.joinpath(dir).joinpath(path.name)`. */
  function Relocate(path: Path, dir: string): (r: Path)
    ensures ValidPart(Name(path)) ==> Name(r) == Name(path)
    ensures ValidPart(Name(path)) && ValidPart(dir) ==>
              Name(Parent(r)) == dir && Parent(Parent(r)) == Parent(Parent(path))
  {
    RelocateNames(path, dir);
    JoinPath(JoinPath(Parent(Parent(path)), dir), Name(path))
  }

  lemma RelocateNames(path: Path, dir: string)
    ensures var r := JoinPath(JoinPath(Parent(Parent(path)), dir), Name(path));
            ValidPart(Name(path)) ==> Name(r) == Name(path)
    ensures var r := JoinPath(JoinPath(Parent(Parent(path)), dir), Name(path));
            ValidPart(Name(path)) && ValidPart(dir) ==>
              Name(Parent(r)) == dir && Parent(Parent(r)) == Parent(Parent(path))
  {
    var parent := JoinPath(Parent(Parent(path)), dir);
    if ValidPart(Name(path)) {
      JoinPathPart(parent, Name(path));
      if ValidPart(dir) {
        JoinPathPart(Parent(Parent(path)), dir);
      }
    }
  }

  /** `transformed_validation_path` and `transformed_train_test_path`: the
      split file with `_processed` appended to its stem, moved into a
      `processed` folder beside the split file's folder. */
  function TransformedSplitPath(u: Utils, tag: string): (r: Result<Path, PathError>)
    ensures r.Success? <==> ProcessedSplitName(u, tag).Success?
    ensures r.Success? ==> Name(r.value) == Tagged(Tagged(Name(InterimPath(u)), tag), ProcessedTag)
    ensures r.Success? ==> Name(Parent(r.value)) == ProcessedDir
    ensures r.Success? ==> Parent(Parent(r.value)) == Parent(Parent(InterimPath(u)))
  {
    var path :- ProcessedSplitName(u, tag);
    ConstantsWellFormed();
    Success(Relocate(path, ProcessedDir))
  }

  function TransformedValidationPath(u: Utils): (r: Result<Path, PathError>)
    ensures r.Success? ==> Name(r.value) == Tagged(Tagged(Name(InterimPath(u)), ValidationTag), ProcessedTag)
    ensures r.Success? ==> Name(Parent(r.value)) == ProcessedDir
  {
    TransformedSplitPath(u, ValidationTag)
  }

  function TransformedTrainTestPath(u: Utils): (r: Result<Path, PathError>)
    ensures r.Success? ==> Name(r.value) == Tagged(Tagged(Name(InterimPath(u)), TrainTestTag), ProcessedTag)
    ensures r.Success? ==> Name(Parent(r.value)) == ProcessedDir
  {
    TransformedSplitPath(u, TrainTestTag)
  }

  /** `models_path`: `models` beside the data folder. The trailing slash of
      `models/` is dropped by pathlib. */
  function ModelsPath(u: Utils): (r: Path)
    ensures r.rooted == u.dataFolder.rooted
    ensures r.parts == Parent(u.dataFolder).parts + ["models"]
  {
    ModelsDirParts();
    JoinPath(Parent(u.dataFolder), ModelsDir)
  }

  /** `models/` is parsed as the single part `models`. */
  lemma ModelsDirParts()
    ensures SplitParts(ModelsDir) == ["models"]
  {
    assert FirstSlash(ModelsDir) == 6;
    assert ModelsDir[..6] == "models";
    assert ModelsDir[7..] == "";
    assert SplitParts("") == [];
  }

  /** Moving `<grand>/<mid>/<name>` into `dir` gives `<grand>/<dir>/<name>`. */
  lemma RelocateParts(path: Path, dir: string)
    requires |path.parts| >= 2 && ValidPart(dir) && ValidPart(Name(path))
    ensures Relocate(path, dir).rooted == path.rooted
    ensures Relocate(path, dir).parts == path.parts[..|path.parts| - 2] + [dir, Name(path)]
  {
    var grand := Parent(Parent(path));
    assert grand.parts == path.parts[..|path.parts| - 2];
    JoinPathPart(grand, dir);
    JoinPathPart(JoinPath(grand, dir), Name(path));
    assert grand.parts + [dir] + [Name(path)] == grand.parts + [dir, Name(path)];
  }

  /** Inserting a slash-free tag into a part gives a part. */
  lemma TaggedValid(name: string, tag: string)
    requires ValidPart(name)
    requires tag != "" && '/' !in tag
    ensures ValidPart(Tagged(name, tag))
  {
    StemSuffixSplit(name);
    var t := Tagged(name, tag);
    forall j | 0 <= j < |t|
      ensures t[j] != '/'
    {
      if j < |Stem(name)| {
        assert t[j] == name[j];
      } else if j < |Stem(name)| + |tag| {
        assert t[j] == tag[j - |Stem(name)|];
      } else {
        assert t[j] == name[j - |tag|];
      }
    }
    assert |t| > |tag|;
  }

  /** When the interim path is `<folder>/<name>`, the split file is
      `<folder>/<name tagged>`. */
  lemma RawSplitIn(u: Utils, tag: string, folder: seq<string>, name: string)
    requires InterimPath(u).parts == folder + [name] && ValidPart(name)
    requires tag != "" && '/' !in tag
    ensures RawSplitPath(u, tag).Success?
    ensures RawSplitPath(u, tag).value.rooted == InterimPath(u).rooted
    ensures RawSplitPath(u, tag).value.parts == folder + [Tagged(name, tag)]
    ensures ValidPart(Tagged(name, tag))
  {
    var ip := InterimPath(u);
    assert Name(ip) == name;
    TaggedValid(name, tag);
    WithStemParts(ip, Stem(name) + tag);
    assert ip.parts[..|ip.parts| - 1] == folder;
  }

  /** When the interim path is `<folder>/<name>`, the split file with
      `_processed` added is `<folder>/<name tagged twice>`. */
  lemma ProcessedSplitIn(u: Utils, tag: string, folder: seq<string>, name: string)
    requires InterimPath(u).parts == folder + [name] && ValidPart(name)
    requires tag != "" && '/' !in tag
    ensures ProcessedSplitName(u, tag).Success?
    ensures ProcessedSplitName(u, tag).value.rooted == InterimPath(u).rooted
    ensures ProcessedSplitName(u, tag).value.parts == folder + [Tagged(Tagged(name, tag), ProcessedTag)]
    ensures ValidPart(Tagged(Tagged(name, tag), ProcessedTag))
  {
    ConstantsWellFormed();
    RawSplitIn(u, tag, folder, name);
    var raw := RawSplitPath(u, tag).value;
    var v := Tagged(name, tag);
    assert Name(raw) == v;
    TaggedValid(v, ProcessedTag);
    WithStemParts(raw, Stem(v) + ProcessedTag);
    assert raw.parts[..|raw.parts| - 1] == folder;
  }

  /** The general rule: when the interim path is `<grand>/<mid>/<name>`, the
      processed file is `<grand>/processed/<name tagged twice>`. */
  lemma TransformedSplitIn(u: Utils, tag: string, grand: seq<string>, mid: string, name: string)
    requires InterimPath(u).parts == grand + [mid] + [name] && ValidPart(name)
    requires tag != "" && '/' !in tag
    ensures TransformedSplitPath(u, tag).Success?
    ensures TransformedSplitPath(u, tag).value.rooted == InterimPath(u).rooted
    ensures TransformedSplitPath(u, tag).value.parts
            == grand + [ProcessedDir, Tagged(Tagged(name, tag), ProcessedTag)]
  {
    ConstantsWellFormed();
    ProcessedSplitIn(u, tag, grand + [mid], name);
    var path := ProcessedSplitName(u, tag).value;
    RelocateParts(path, ProcessedDir);
    assert path.parts[..|path.parts| - 2] == grand;
  }

  /** For a single-part file name, the split file lies directly in
      `<data folder>/interim`, and is named with the tag inserted between the
      original stem and suffix (`TaggedSplit` says how pathlib reads that
      name back). */
  lemma RawSplitPathShape(u: Utils, tag: string)
    requires ValidPart(u.inputFileName)
    requires tag != "" && '/' !in tag
    ensures RawSplitPath(u, tag).Success?
    ensures RawSplitPath(u, tag).value.rooted == u.dataFolder.rooted
    ensures RawSplitPath(u, tag).value.parts == u.dataFolder.parts + [InterimDir, Tagged(u.inputFileName, tag)]
  {
    RawSplitIn(u, tag, u.dataFolder.parts + [InterimDir], u.inputFileName);
  }

  /** For a single-part file name, the processed file is the split file's
      name tagged with `_processed`, directly inside `<data folder>/processed`. */
  lemma TransformedSplitPathIs(u: Utils, tag: string)
    requires ValidPart(u.inputFileName)
    requires tag != "" && '/' !in tag
    ensures TransformedSplitPath(u, tag).Success?
    ensures TransformedSplitPath(u, tag).value.rooted == u.dataFolder.rooted
    ensures TransformedSplitPath(u, tag).value.parts ==
              u.dataFolder.parts + [ProcessedDir, Tagged(Tagged(u.inputFileName, tag), ProcessedTag)]
  {
    TransformedSplitIn(u, tag, u.dataFolder.parts, InterimDir, u.inputFileName);
  }

  /** For a single-part file name that does not end with a dot, the processed
      file is `<data folder>/processed/<stem><tag>_processed<suffix>`
      (`TaggedTwice` says pathlib reads that name back as stem and suffix). */
  lemma TransformedSplitPathShape(u: Utils, tag: string)
    requires ValidPart(u.inputFileName) && !EndsWithDot(u.inputFileName)
    requires tag != "" && '.' !in tag && '/' !in tag
    ensures TransformedSplitPath(u, tag).Success?
    ensures TransformedSplitPath(u, tag).value.rooted == u.dataFolder.rooted
    ensures TransformedSplitPath(u, tag).value.parts ==
              u.dataFolder.parts + [ProcessedDir, Stem(u.inputFileName) + tag + ProcessedTag + Suffix(u.inputFileName)]
  {
    TransformedSplitPathIs(u, tag);
    ConstantsWellFormed();
    TaggedTwiceName(u.inputFileName, tag, ProcessedTag);
  }

  /** A file name with one folder in it, such as `sub/f.csv`: the processed
      file lands in `<data folder>/interim/processed`, not in
      `<data folder>/processed`, because the split file's folder is
      `interim/sub` and only one level is climbed from it. */
  lemma NestedSplitPathIs(u: Utils, dir: string, name: string, tag: string)
    requires !Absolute(u.inputFileName)
    requires SplitParts(u.inputFileName) == [dir, name]
    requires tag != "" && '/' !in tag
    ensures TransformedSplitPath(u, tag).Success?
    ensures TransformedSplitPath(u, tag).value.rooted == u.dataFolder.rooted
    ensures TransformedSplitPath(u, tag).value.parts
            == u.dataFolder.parts + [InterimDir, ProcessedDir, Tagged(Tagged(name, tag), ProcessedTag)]
  {
    var sp := SplitParts(u.inputFileName);
    assert ValidPart(sp[1]);
    var grand := u.dataFolder.parts + [InterimDir];
    assert InterimPath(u).parts == grand + [dir] + [name] by {
      assert InterimPath(u).parts == grand + sp;
    }
    TransformedSplitIn(u, tag, grand, dir, name);
    AppendThree(u.dataFolder.parts, InterimDir, ProcessedDir, Tagged(Tagged(name, tag), ProcessedTag));
  }

  /** Regrouping a list extended by three elements. */
  lemma AppendThree<T>(a: seq<T>, b: T, c: T, d: T)
    ensures a + [b] + [c, d] == a + [b, c, d]
  {
  }

  /** `<dir>/<name>` is split by pathlib into exactly those two parts. */
  lemma SplitTwoParts(dir: string, name: string)
    requires ValidPart(dir) && ValidPart(name)
    ensures SplitParts(dir + "/" + name) == [dir, name]
    ensures (dir + "/" + name)[0] != '/'
  {
    SplitJoinRoundTrip([dir, name]);
    assert JoinParts([dir, name]) == dir + "/" + name by {
      assert [dir, name][1..] == [name];
    }
  }

  /** An input name `<dir>/<name>` with a directory in it: the processed
      split file lands in a `processed` folder created inside `interim`,
      not in the `processed` folder beside it. */
  lemma NestedInputSplitPath(u: Utils, dir: string, name: string, tag: string)
    requires ValidPart(dir) && ValidPart(name) && u.inputFileName == dir + "/" + name
    requires tag != "" && '/' !in tag
    ensures TransformedSplitPath(u, tag).Success?
    ensures TransformedSplitPath(u, tag).value.parts
            == u.dataFolder.parts + [InterimDir, ProcessedDir, Tagged(Tagged(name, tag), ProcessedTag)]
  {
    SplitTwoParts(dir, name);
    NestedSplitPathIs(u, dir, name, tag);
  }

  /** The input name `sub/f.csv`: the processed validation file is
      `interim/processed/f_validation_processed.csv` under the data folder. */
  lemma NestedInputExample(u: Utils)
    requires u.inputFileName == "sub/f.csv"
    ensures TransformedValidationPath(u).Success?
    ensures TransformedValidationPath(u).value.parts
            == u.dataFolder.parts + [InterimDir, ProcessedDir, "f" + ValidationTag + ProcessedTag + ".csv"]
  {
    assert "sub/f.csv" == "sub" + "/" + "f.csv";
    ConstantsWellFormed();
    NestedInputSplitPath(u, "sub", "f.csv", ValidationTag);
    CsvName();
  }

  /** `f.csv` tagged `_validation` then `_processed` is
      `f_validation_processed.csv`. */
  lemma CsvName()
    ensures Tagged(Tagged("f.csv", ValidationTag), ProcessedTag) == "f" + ValidationTag + ProcessedTag + ".csv"
  {
    ConstantsWellFormed();
    TaggedTwiceName("f.csv", ValidationTag, ProcessedTag);
    LastDotIs("f.csv", 1);
    assert Stem("f.csv") == "f" && Suffix("f.csv") == ".csv";
  }

  /** Tagging a name twice, when it does not end with a dot, appends both
      tags to the stem and keeps the suffix, and pathlib reads the result
      back as that stem and that suffix. */
  lemma TaggedTwice(name: string, tag1: string, tag2: string)
    requires ValidPart(name) && !EndsWithDot(name)
    requires tag1 != "" && '.' !in tag1 && '/' !in tag1
    requires tag2 != "" && '.' !in tag2
    ensures Tagged(Tagged(name, tag1), tag2) == Stem(name) + tag1 + tag2 + Suffix(name)
    ensures Stem(Tagged(Tagged(name, tag1), tag2)) == Stem(name) + tag1 + tag2
    ensures Suffix(Tagged(Tagged(name, tag1), tag2)) == Suffix(name)
  {
    var rawName := Tagged(name, tag1);
    TaggedSplit(name, tag1);
    StemSuffixSplit(name);
    // `rawName` ends with the suffix, or with the tag, so not with a dot.
    assert !EndsWithDot(rawName) by {
      if Suffix(name) != "" {
        assert rawName[|rawName| - 1] == Suffix(name)[|Suffix(name)| - 1];
      } else {
        assert rawName[|rawName| - 1] == tag1[|tag1| - 1];
      }
    }
    TaggedSplit(rawName, tag2);
  }

  /** The name part of `TaggedTwice`, on its own. */
  lemma TaggedTwiceName(name: string, tag1: string, tag2: string)
    requires ValidPart(name) && !EndsWithDot(name)
    requires tag1 != "" && '.' !in tag1 && '/' !in tag1
    requires tag2 != "" && '.' !in tag2
    ensures Tagged(Tagged(name, tag1), tag2) == Stem(name) + tag1 + tag2 + Suffix(name)
  {
    TaggedTwice(name, tag1, tag2);
  }

  /** The validation and train/test names differ, before and after the
      `_processed` tag. */
  lemma SplitNamesDiffer(name: string)
    ensures Tagged(name, ValidationTag) != Tagged(name, TrainTestTag)
    ensures Tagged(Tagged(name, ValidationTag), ProcessedTag) != Tagged(Tagged(name, TrainTestTag), ProcessedTag)
  {
    var s := |Stem(name)|;
    var v, t := Tagged(name, ValidationTag), Tagged(name, TrainTestTag);
    StemSuffixSplit(name);
    assert |v| == |t|;
    assert v[s + 1] == 'v' && t[s + 1] == 't';
    forall j | 0 <= j < |v|
      ensures v[j] == '.' <==> t[j] == '.'
    {
      if j < s {
        assert v[j] == t[j];
      } else if j >= s + 11 {
        assert v[j] == Suffix(name)[j - s - 11] == t[j];
      } else {
        assert v[j] == ValidationTag[j - s] && t[j] == TrainTestTag[j - s];
      }
    }
    LastDotIs(t, LastDot(v));
    if Tagged(v, ProcessedTag) == Tagged(t, ProcessedTag) {
      TaggedInjective(v, t, ProcessedTag);
      assert false;
    }
  }

  /** For a single-part file name, the input file, the two split files and
      the two processed files are five different paths: no derived path
      overwrites another or the input. */
  lemma DerivedPathsDistinct(u: Utils)
    requires ValidPart(u.inputFileName)
    ensures RawValidationPath(u).Success? && RawTrainTestPath(u).Success?
    ensures TransformedValidationPath(u).Success? && TransformedTrainTestPath(u).Success?
    ensures var paths := [InputFilePath(u), RawValidationPath(u).value, RawTrainTestPath(u).value,
                          TransformedValidationPath(u).value, TransformedTrainTestPath(u).value];
            forall i, j :: 0 <= i < j < |paths| ==> paths[i] != paths[j]
  {
    DerivedPathsAt(u);
    ConstantsWellFormed();
    FivePathsDistinct(InputFilePath(u), RawValidationPath(u).value, RawTrainTestPath(u).value,
                      TransformedValidationPath(u).value, TransformedTrainTestPath(u).value,
                      |u.dataFolder.parts|);
  }

  /** Five paths that have, at one position, the folders `raw`, `interim`,
      `interim`, `processed`, `processed`, and whose two `interim` and two
      `processed` entries differ in the next part, are pairwise different. */
  lemma FivePathsDistinct(p0: Path, p1: Path, p2: Path, p3: Path, p4: Path, k: nat)
    requires RawDir != InterimDir && InterimDir != ProcessedDir && RawDir != ProcessedDir
    requires Layout(p0, p1, p2, p3, p4, k)
    ensures var paths := [p0, p1, p2, p3, p4];
            forall i, j :: 0 <= i < j < |paths| ==> paths[i] != paths[j]
  {
    var paths := [p0, p1, p2, p3, p4];
    var dirs := [RawDir, InterimDir, InterimDir, ProcessedDir, ProcessedDir];
    forall i, j | 0 <= i < j < |paths|
      ensures paths[i] != paths[j]
    {
      assert paths[i].parts[k] == dirs[i] && paths[j].parts[k] == dirs[j];
      if dirs[i] == dirs[j] {
        assert (i, j) == (1, 2) || (i, j) == (3, 4);
      }
    }
  }

  /** For a single-part file name, every derived path is the data folder
      plus one folder and one name: `raw` for the input, `interim` for the
      splits and `processed` for the processed files, with the two split
      names, and the two processed names, different. */
  lemma DerivedPathsAt(u: Utils)
    requires ValidPart(u.inputFileName)
    ensures RawValidationPath(u).Success? && RawTrainTestPath(u).Success?
    ensures TransformedValidationPath(u).Success? && TransformedTrainTestPath(u).Success?
    ensures Layout(InputFilePath(u), RawValidationPath(u).value, RawTrainTestPath(u).value,
                   TransformedValidationPath(u).value, TransformedTrainTestPath(u).value,
                   |u.dataFolder.parts|)
  {
    var f, name := u.dataFolder.parts, u.inputFileName;
    ConstantsWellFormed();
    assert InputFilePath(u).parts == f + [RawDir, name] by {
      assert SplitParts(name) == [name];
    }
    assert RawValidationPath(u).Success? && RawValidationPath(u).value.parts == f + [InterimDir, Tagged(name, ValidationTag)] by {
      RawSplitPathShape(u, ValidationTag);
    }
    assert RawTrainTestPath(u).Success? && RawTrainTestPath(u).value.parts == f + [InterimDir, Tagged(name, TrainTestTag)] by {
      RawSplitPathShape(u, TrainTestTag);
    }
    assert TransformedValidationPath(u).Success?
        && TransformedValidationPath(u).value.parts == f + [ProcessedDir, Tagged(Tagged(name, ValidationTag), ProcessedTag)] by {
      TransformedSplitPathIs(u, ValidationTag);
    }
    assert TransformedTrainTestPath(u).Success?
        && TransformedTrainTestPath(u).value.parts == f + [ProcessedDir, Tagged(Tagged(name, TrainTestTag), ProcessedTag)] by {
      TransformedSplitPathIs(u, TrainTestTag);
    }
    SplitNamesDiffer(name);
    LayoutOfParts(InputFilePath(u), RawValidationPath(u).value, RawTrainTestPath(u).value,
                  TransformedValidationPath(u).value, TransformedTrainTestPath(u).value, f,
                  name, Tagged(name, ValidationTag), Tagged(name, TrainTestTag),
                  Tagged(Tagged(name, ValidationTag), ProcessedTag), Tagged(Tagged(name, TrainTestTag), ProcessedTag));
  }

  /** Five paths under one folder `f`, each one folder and one name below it,
      with the two names in each shared folder different, are laid out as
      `Layout` says. */
  lemma LayoutOfParts(p0: Path, p1: Path, p2: Path, p3: Path, p4: Path, f: seq<string>,
                      n0: string, n1: string, n2: string, n3: string, n4: string)
    requires p0.parts == f + [RawDir, n0]
    requires p1.parts == f + [InterimDir, n1] && p2.parts == f + [InterimDir, n2]
    requires p3.parts == f + [ProcessedDir, n3] && p4.parts == f + [ProcessedDir, n4]
    requires n1 != n2 && n3 != n4
    ensures Layout(p0, p1, p2, p3, p4, |f|)
  {
  }

  /** The input, two split and two processed paths: at position `k` they
      hold the folders `raw`, `interim`, `interim`, `processed`,
      `processed`, and the two paths in each shared folder differ in the
      next part. */
  predicate Layout(p0: Path, p1: Path, p2: Path, p3: Path, p4: Path, k: nat) {
    && |p0.parts| > k && |p1.parts| > k + 1 && |p2.parts| > k + 1 && |p3.parts| > k + 1 && |p4.parts| > k + 1
    && p0.parts[k] == RawDir && p1.parts[k] == InterimDir && p2.parts[k] == InterimDir
    && p3.parts[k] == ProcessedDir && p4.parts[k] == ProcessedDir
    && p1.parts[k + 1] != p2.parts[k + 1] && p3.parts[k + 1] != p4.parts[k + 1]
  }

  /** A file name ending with a dot, `data.`: the second tag is put before
      the first, giving `processed/data_processed._validation` rather than
      `data._validation_processed`. */
  lemma TrailingDotExample(folder: Path)
    ensures var u := New(folder, "data.");
            TransformedValidationPath(u).Success?
            && TransformedValidationPath(u).value.parts == folder.parts + [ProcessedDir, "data_processed._validation"]
  {
    var u := New(folder, "data.");
    ConstantsWellFormed();
    TransformedSplitPathIs(u, ValidationTag);
    TrailingDotName();
  }

  lemma TrailingDotName()
    ensures Tagged(Tagged("data.", ValidationTag), ProcessedTag) == "data_processed._validation"
  {
    var name := "data.";
    assert EndsWithDot(name);
    ConstantsWellFormed();
    TaggedSplit(name, ValidationTag);
    var v := Tagged(name, ValidationTag);
    assert name[..|name| - 1] == "data";
    assert Tagged(v, ProcessedTag) == Stem(v) + ProcessedTag + Suffix(v);
  }

  /** The name `/` leaves the split file without a name: the derived paths
      fail with pathlib's empty-name error. */
  lemma RootNameExample(folder: Path)
    ensures RawValidationPath(New(folder, "/")) == Failure(EmptyName(Path(true, [])))
    ensures TransformedValidationPath(New(folder, "/")) == Failure(EmptyName(Path(true, [])))
  {
    assert SplitParts("/") == [] by {
      assert FirstSlash("/") == 0;
      assert "/"[1..] == "";
    }
  }

  /** The models folder depends only on the data folder, not on the input
      file name, and sits beside the data folder. */
  lemma ModelsPathShape(u: Utils, otherName: string)
    ensures ModelsPath(u) == ModelsPath(u.(inputFileName := otherName))
    ensures |u.dataFolder.parts| > 0 ==> Parent(ModelsPath(u)) == Parent(u.dataFolder)
    ensures |u.dataFolder.parts| > 0 ==> Name(ModelsPath(u)) == "models"
  {
  }

  // --------------------------------------------------------------- caches

  /** One lazily filled cache slot: an empty slot is filled by `load`, a full
      one is returned as it is. A failed load leaves the slot empty. */
  function Cached<T>(slot: Option<T>, load: Result<T, IoError>): (r: (Result<T, IoError>, Option<T>))
    ensures slot.Some? ==> r == (Success(slot.value), slot)
    ensures slot.None? && load.Failure? ==> r == (load, None)
    ensures slot.None? && load.Success? ==> r == (load, Some(load.value))
    ensures r.0.Success? <==> r.1.Some? && r.1 == Some(r.0.value)
  {
    if slot.Some? then (Success(slot.value), slot)
    else if load.Success? then (load, Some(load.value))
    else (load, None)
  }

  /** `load_data(path)`: the table stored at `path`. A missing file and a
      model file both fail. */
  function LoadData(disk: Disk, path: Path): (r: Result<Table, IoError>)
    ensures r.Success? <==> HoldsTable(disk, path)
    ensures r.Success? ==> disk.files[path] == TableFile(r.value)
    ensures path !in disk.files ==> r == Failure(FileNotFound(path))
  {
    if path !in disk.files then Failure(FileNotFound(path))
    else match disk.files[path]
      case TableFile(t) => Success(t)
      case ModelFile(_) => Failure(WrongFormat(path))
  }

  /** `save_data(df, path)`: stores the table at `path`, replacing whatever
      file was there, and leaves every other file as it was. */
  function SaveData(disk: Disk, df: Table, path: Path): (d: Disk)
    ensures path in d.files && d.files[path] == TableFile(df)
    ensures forall q :: q in disk.files && q != path ==> q in d.files && d.files[q] == disk.files[q]
    ensures d.files.Keys == disk.files.Keys + {path}
  {
    Disk(disk.files[path := TableFile(df)])
  }

  /** Reading back a table just saved gives that table. */
  lemma SaveLoadRoundTrip(disk: Disk, df: Table, path: Path)
    ensures LoadData(SaveData(disk, df, path), path) == Success(df)
  {
  }

  /** Loads a table from a derived path, turning a path error into a read error. */
  function LoadFrom(disk: Disk, path: Result<Path, PathError>): (r: Result<Table, IoError>)
    ensures r.Success? <==> path.Success? && HoldsTable(disk, path.value)
    ensures r.Success? ==> disk.files[path.value] == TableFile(r.value)
    ensures path.Failure? ==> r.Failure? && r.error == BadPath(path.error)
  {
    if path.Failure? then Failure(BadPath(path.error)) else LoadData(disk, path.value)
  }

  /** The `data` getter: loads the input file only when nothing is cached. */
  function GetData(u: Utils, disk: Disk): (r: Read<Table>)
    ensures u.data.Some? ==> r == Read(Success(u.data.value), u)
    ensures u.data.None? ==> r.value == LoadData(disk, InputFilePath(u))
    ensures r.value.Success? ==> r.state == u.(data := Some(r.value.value))
    ensures r.value.Failure? ==> r.state == u
  {
    var (v, slot) := Cached(u.data, LoadData(disk, InputFilePath(u)));
    Read(v, u.(data := slot))
  }

  /** The `data` setter: replaces the cached table. Assigning `None`
      empties the slot, so the next read loads the input file again. */
  function SetData(u: Utils, df: Option<Table>): (r: Utils)
    ensures r.data == df
    ensures r.(data := u.data) == u
  {
    u.(data := df)
  }

  /** The `train_test_data` getter: loads the processed train/test file at
      most once and hands out the cached table. */
  function GetTrainTestData(u: Utils, disk: Disk): (r: Read<Table>)
    ensures u.trainTestData.Some? ==> r == Read(Success(u.trainTestData.value), u)
    ensures u.trainTestData.None? ==> r.value == LoadFrom(disk, TransformedTrainTestPath(u))
    ensures r.value.Success? ==> r.state == u.(trainTestData := Some(r.value.value))
    ensures r.value.Failure? ==> r.state == u
  {
    var (v, slot) := Cached(u.trainTestData, LoadFrom(disk, TransformedTrainTestPath(u)));
    Read(v, u.(trainTestData := slot))
  }

  /** The `validation_data` getter, like `train_test_data` for the validation file. */
  function GetValidationData(u: Utils, disk: Disk): (r: Read<Table>)
    ensures u.validationData.Some? ==> r == Read(Success(u.validationData.value), u)
    ensures u.validationData.None? ==> r.value == LoadFrom(disk, TransformedValidationPath(u))
    ensures r.value.Success? ==> r.state == u.(validationData := Some(r.value.value))
    ensures r.value.Failure? ==> r.state == u
  {
    var (v, slot) := Cached(u.validationData, LoadFrom(disk, TransformedValidationPath(u)));
    Read(v, u.(validationData := slot))
  }

  /** The `model` getter: loads the artefact at `models_path` only when no
      model is cached. */
  function GetModel(u: Utils, disk: Disk): (r: Read<Model>)
    ensures u.model.Some? ==> r == Read(Success(u.model.value), u)
    ensures u.model.None? ==> (r.value.Success? <==> HoldsModel(disk, ModelsPath(u)))
    ensures u.model.None? && r.value.Success? ==> disk.files[ModelsPath(u)] == ModelFile(r.value.value)
    ensures r.value.Success? ==> r.state == u.(model := Some(r.value.value))
    ensures r.value.Failure? ==> r.state == u
  {
    var path := ModelsPath(u);
    var load := if path !in disk.files then Failure(FileNotFound(path))
                else if disk.files[path].ModelFile? then Success(disk.files[path].model)
                else Failure(WrongFormat(path));
    var (v, slot) := Cached(u.model, load);
    Read(v, u.(model := slot))
  }

  /** The `model` setter: writes the artefact to `models_path` and leaves the
      object, including its cached model, as it is. */
  function SetModel(u: Utils, disk: Disk, m: Model): (d: Disk)
    ensures ModelsPath(u) in d.files && d.files[ModelsPath(u)] == ModelFile(m)
    ensures forall q :: q in disk.files && q != ModelsPath(u) ==> q in d.files && d.files[q] == disk.files[q]
    ensures d.files.Keys == disk.files.Keys + {ModelsPath(u)}
  {
    Disk(disk.files[ModelsPath(u) := ModelFile(m)])
  }

  // ------------------------------------------------------- cache lemmas

  /** Once a read of a slot succeeded, a second read returns the same value
      and state whatever the second load would give: it does not load. */
  lemma CachedReadOnce<T>(slot: Option<T>, load1: Result<T, IoError>, load2: Result<T, IoError>)
    requires Cached(slot, load1).0.Success?
    ensures Cached(Cached(slot, load1).1, load2) == Cached(slot, load1)
  {
  }

  /** Reading `data` twice: the second read gives the same table and state,
      even if the file changed on disk in between. */
  lemma DataReadTwice(u: Utils, disk1: Disk, disk2: Disk)
    requires GetData(u, disk1).value.Success?
    ensures GetData(GetData(u, disk1).state, disk2) == GetData(u, disk1)
  {
  }

  /** After the `data` setter, the getter returns the table set, without
      loading, and the other caches are as before. */
  lemma SetThenGetData(u: Utils, df: Table, disk: Disk)
    ensures GetData(SetData(u, Some(df)), disk) == Read(Success(df), SetData(u, Some(df)))
    ensures SetData(u, Some(df)).trainTestData == u.trainTestData
    ensures SetData(u, Some(df)).validationData == u.validationData
    ensures SetData(u, Some(df)).model == u.model
  {
  }

  /** Setting `data` to `None` drops the cached table: the next read loads
      the input file from disk, whatever was cached before. */
  lemma SetNoneThenGetData(u: Utils, disk: Disk)
    ensures GetData(SetData(u, None), disk).value.Success? <==> HoldsTable(disk, InputFilePath(u))
    ensures HoldsTable(disk, InputFilePath(u)) ==>
              disk.files[InputFilePath(u)] == TableFile(GetData(SetData(u, None), disk).value.value)
  {
  }

  /** Reading the train/test or validation data twice gives the same table
      the second time, however the files changed. */
  lemma SplitDataReadTwice(u: Utils, disk1: Disk, disk2: Disk)
    ensures GetTrainTestData(u, disk1).value.Success? ==>
              GetTrainTestData(GetTrainTestData(u, disk1).state, disk2) == GetTrainTestData(u, disk1)
    ensures GetValidationData(u, disk1).value.Success? ==>
              GetValidationData(GetValidationData(u, disk1).state, disk2) == GetValidationData(u, disk1)
  {
  }

  /** Writing a model through the setter does not change what the getter
      returns once a model was cached: the cached one is still returned. When
      nothing was cached yet, the getter reads the model just written. */
  lemma ModelSetterKeepsCache(u: Utils, disk: Disk, m: Model)
    ensures u.model.Some? ==> GetModel(u, SetModel(u, disk, m)).value == Success(u.model.value)
    ensures u.model.None? ==> GetModel(u, SetModel(u, disk, m)).value == Success(m)
  {
  }

  /** One path holds one file: saving a table at `models_path` replaces the
      model there, so an empty model slot then fails to load, and writing a
      model over the input file makes the `data` read fail. */
  lemma OneFilePerPath(u: Utils, disk: Disk, df: Table, m: Model)
    ensures u.model.None? ==>
              GetModel(u, SaveData(disk, df, ModelsPath(u))).value == Failure(WrongFormat(ModelsPath(u)))
    ensures u.data.None? && InputFilePath(u) == ModelsPath(u) ==>
              GetData(u, SetModel(u, disk, m)).value == Failure(WrongFormat(InputFilePath(u)))
  {
  }

  /** Each getter changes at most its own cache slot. */
  lemma GettersTouchOwnSlot(u: Utils, disk: Disk)
    ensures GetData(u, disk).state.(data := u.data) == u
    ensures GetTrainTestData(u, disk).state.(trainTestData := u.trainTestData) == u
    ensures GetValidationData(u, disk).state.(validationData := u.validationData) == u
    ensures GetModel(u, disk).state.(model := u.model) == u
  {
  }

  // ------------------------------------------------------------- columns

  /** `y_names`: the target column, whatever the data. */
  function YNames(u: Utils): (y: string)
    ensures y == "precio_kg"
  {
    YName
  }

  /** The distinct elements of `columns` other than `y`, in order of first
      appearance (one of the orders `list(set(...) - {y})` can produce). */
  method ColumnsWithout(columns: seq<string>, y: string) returns (names: seq<string>)
    ensures forall c :: c in names <==> c in columns && c != y
    ensures forall i, j :: 0 <= i < j < |names| ==> names[i] != names[j]
  {
    names := [];
    var k := 0;
    while k < |columns|
      invariant 0 <= k <= |columns|
      invariant forall c :: c in names <==> c in columns[..k] && c != y
      invariant forall i, j :: 0 <= i < j < |names| ==> names[i] != names[j]
    {
      var c := columns[k];
      if c != y && c !in names {
        names := names + [c];
      }
      assert columns[..k + 1] == columns[..k] + [c];
      k := k + 1;
    }
    assert columns[..k] == columns;
  }

  /** `X_names`: reads `data` (loading it if needed) and lists its columns
      other than the target, each once. */
  method XNames(u: Utils, disk: Disk) returns (names: Result<seq<string>, IoError>, u': Utils)
    ensures u' == GetData(u, disk).state
    ensures names.Success? <==> GetData(u, disk).value.Success?
    ensures names.Failure? ==> names.error == GetData(u, disk).value.error
    ensures names.Success? ==>
              var cols := GetData(u, disk).value.value.columns;
              (forall c :: c in names.value <==> c in cols && c != YNames(u))
              && (forall i, j :: 0 <= i < j < |names.value| ==> names.value[i] != names.value[j])
    ensures names.Success? ==> YNames(u) !in names.value
  {
    var read := GetData(u, disk);
    u' := read.state;
    if read.value.Failure? {
      names := Failure(read.value.error);
    } else {
      var cols := ColumnsWithout(read.value.value.columns, YNames(u));
      names := Success(cols);
    }
  }
}

=== FILE: paths.dfy ===
/** The part of Python's POSIX `pathlib` that the data utilities rely on:
    `joinpath`, `parent`, `name`, `stem`, `suffix`, `with_name` and `with_stem`.

    A path is a flag saying whether it starts at the root `/` plus the list of
    its parts. Parts are never empty, never `.` and never contain `/`; `..` is
    kept as an ordinary part, since pathlib does not resolve it lexically. */
module Paths {
  import opened Results

  datatype Path = Path(rooted: bool, parts: seq<string>)

  datatype PathError =
    | EmptyName(path: Path)    // `with_name` on a path such as `/` or `.`
    | InvalidName(name: string) // the new name is not a single part

  /** A string pathlib keeps as one part. */
  predicate ValidPart(s: string) {
    s != "" && s != "." && '/' !in s
  }

  /** Every path pathlib builds has only valid parts. */
  predicate WellFormed(p: Path) {
    forall i :: 0 <= i < |p.parts| ==> ValidPart(p.parts[i])
  }

  /** Index of the first `/` in `s`, or `|s|` when there is none. */
  function FirstSlash(s: string): (k: nat)
    ensures k <= |s|
    ensures forall j :: 0 <= j < k ==> s[j] != '/'
    ensures k < |s| ==> s[k] == '/'
  {
    if |s| == 0 then 0
    else if s[0] == '/' then 0
    else 1 + FirstSlash(s[1..])
  }

  /** Splits a string given to `joinpath` at `/`, dropping the empty and `.`
      segments, as pathlib's parser does. */
  function SplitParts(s: string): (r: seq<string>)
    ensures forall i :: 0 <= i < |r| ==> ValidPart(r[i])
    ensures ValidPart(s) ==> r == [s]
    decreases |s|
  {
    var k := FirstSlash(s);
    assert ValidPart(s) ==> k == |s| && s[..k] == s;
    var rest := if k < |s| then SplitParts(s[k + 1..]) else [];
    var head := s[..k];
    if head == "" || head == "." then rest else [head] + rest
  }

  /** The string form of a relative path: its parts separated by `/`. */
  function JoinParts(ps: seq<string>): string {
    if |ps| == 0 then ""
    else if |ps| == 1 then ps[0]
    else ps[0] + "/" + JoinParts(ps[1..])
  }

  /** Printing the parts of a well-formed path and parsing the text again
      gives back the same parts. */
  lemma {:induction false} SplitJoinRoundTrip(ps: seq<string>)
    requires forall i :: 0 <= i < |ps| ==> ValidPart(ps[i])
    ensures SplitParts(JoinParts(ps)) == ps
    decreases |ps|
  {
    if |ps| == 0 {
    } else if |ps| == 1 {
      assert ValidPart(ps[0]);
    } else {
      var head, tail := ps[0], JoinParts(ps[1..]);
      var s := head + "/" + tail;
      assert ValidPart(head);
      assert FirstSlash(s) == |head| by {
        assert forall j :: 0 <= j < |head| ==> s[j] == head[j];
        assert s[|head|] == '/';
      }
      assert s[..|head|] == head;
      assert s[|head| + 1..] == tail;
      SplitJoinRoundTrip(ps[1..]);
      assert SplitParts(s) == [head] + ps[1..];
    }
  }

  /** Whether pathlib reads a string as an absolute path. */
  predicate Absolute(s: string) {
    |s| > 0 && s[0] == '/'
  }

  /** `p.joinpath(s)`: an argument starting with `/` replaces the whole path;
      any other argument appends its parts. */
  function JoinPath(p: Path, s: string): (r: Path)
    ensures Absolute(s) ==> r.rooted && r.parts == SplitParts(s)
    ensures !Absolute(s) ==> r == Path(p.rooted, p.parts + SplitParts(s))
    ensures WellFormed(p) ==> WellFormed(r)
  {
    if Absolute(s) then Path(true, SplitParts(s))
    else Path(p.rooted, p.parts + SplitParts(s))
  }

  /** Joining a single part appends exactly that part. */
  lemma JoinPathPart(p: Path, s: string)
    requires ValidPart(s)
    ensures JoinPath(p, s) == Path(p.rooted, p.parts + [s])
    ensures Parent(JoinPath(p, s)) == p
    ensures Name(JoinPath(p, s)) == s
  {
    assert (p.parts + [s])[..|p.parts|] == p.parts;
  }

  /** `p.parent`: drops the last part; `/` and `.` are their own parent. */
  function Parent(p: Path): (r: Path)
    ensures r.rooted == p.rooted
    ensures |p.parts| > 0 ==> |r.parts| + 1 == |p.parts|
    ensures |p.parts| > 0 ==> p.parts == r.parts + [Name(p)]
    ensures |p.parts| == 0 ==> r == p
  {
    if |p.parts| == 0 then p else Path(p.rooted, p.parts[..|p.parts| - 1])
  }

  /** `p.name`: the last part, or the empty string for `/` and `.`. */
  function Name(p: Path): (r: string)
    ensures WellFormed(p) ==> (r == "" <==> |p.parts| == 0)
    ensures |p.parts| > 0 ==> p.parts == p.parts[..|p.parts| - 1] + [r]
  {
    if |p.parts| == 0 then "" else p.parts[|p.parts| - 1]
  }

  /** `name.rfind('.')`: the index of the last dot, or -1. */
  function LastDot(name: string): (i: int)
    ensures -1 <= i < |name|
    ensures 0 <= i ==> name[i] == '.'
    ensures forall j :: i < j < |name| ==> name[j] != '.'
  {
    LastDotBefore(name, |name|)
  }

  /** The index of the last dot among the first `k` characters, or -1. */
  function LastDotBefore(name: string, k: nat): (i: int)
    requires k <= |name|
    ensures -1 <= i < k
    ensures 0 <= i ==> name[i] == '.'
    ensures forall j :: i < j < k ==> name[j] != '.'
  {
    if k == 0 then -1
    else if name[k - 1] == '.' then k - 1
    else LastDotBefore(name, k - 1)
  }

  /** pathlib treats the last dot as starting a suffix only when it is neither
      the first nor the last character of the name. */
  predicate HasSuffix(name: string) {
    0 < LastDot(name) < |name| - 1
  }

  /** `suffix`: from the last dot on, or empty. */
  function Suffix(name: string): (r: string)
    ensures |r| <= |name| && name[|name| - |r|..] == r
    ensures r == "" || (|r| >= 2 && r[0] == '.' && |r| < |name|)
  {
    if HasSuffix(name) then name[LastDot(name)..] else ""
  }

  /** `stem`: the name without its suffix. */
  function Stem(name: string): string {
    if HasSuffix(name) then name[..LastDot(name)] else name
  }

  /** The stem and the suffix split the name, and the suffix is either empty
      or a dot followed by at least one character and no further dot. */
  lemma StemSuffixSplit(name: string)
    ensures Stem(name) + Suffix(name) == name
    ensures Suffix(name) == "" || (|Suffix(name)| >= 2 && Suffix(name)[0] == '.'
                                   && forall j :: 1 <= j < |Suffix(name)| ==> Suffix(name)[j] != '.')
    ensures Suffix(name) != "" ==> Stem(name) != ""
  {
  }

  /** pathlib's `suffix` rule: there is a suffix exactly when the last dot is
      neither the first nor the last character, and it is the tail from that
      dot. */
  lemma SuffixAtLastDot(name: string)
    ensures Suffix(name) != "" <==> 0 < LastDot(name) < |name| - 1
    ensures Suffix(name) != "" ==> Suffix(name) == name[LastDot(name)..]
  {
  }

  /** A name whose last character is a dot that does not start it, such as
      `data.`: pathlib gives it no suffix, but adding text after the dot
      makes one appear. */
  predicate EndsWithDot(name: string) {
    |name| >= 2 && name[|name| - 1] == '.'
  }

  /** The name `with_stem(stem + tag)` produces for a file called `name`. */
  function Tagged(name: string, tag: string): string {
    Stem(name) + tag + Suffix(name)
  }

  /** Appending a dot-free tag to the stem keeps the suffix and extends the
      stem by the tag, exactly when the name does not end with a dot. */
  lemma TaggedSplit(name: string, tag: string)
    requires tag != "" && '.' !in tag
    ensures !EndsWithDot(name) <==>
              (Stem(Tagged(name, tag)) == Stem(name) + tag && Suffix(Tagged(name, tag)) == Suffix(name))
    ensures EndsWithDot(name) ==>
              Stem(Tagged(name, tag)) == name[..|name| - 1] && Suffix(Tagged(name, tag)) == "." + tag
  {
    StemSuffixSplit(name);
    if HasSuffix(name) {
      TaggedKeepsSuffix(name, tag);
    } else if EndsWithDot(name) {
      TaggedAfterTrailingDot(name, tag);
    } else {
      TaggedWithoutSuffix(name, tag);
    }
  }

  /** `TaggedSplit` for a name with a suffix: the tag goes before it. */
  lemma TaggedKeepsSuffix(name: string, tag: string)
    requires tag != "" && '.' !in tag && HasSuffix(name)
    ensures Stem(Tagged(name, tag)) == Stem(name) + tag && Suffix(Tagged(name, tag)) == Suffix(name)
  {
    var t := Tagged(name, tag);
    var i := LastDot(name);
    var st := Stem(name) + tag;
    assert t == st + name[i..];
    assert |st| == i + |tag|;
    assert t[|st|] == '.';
    forall j | |st| < j < |t|
      ensures t[j] != '.'
    {
      assert t[j] == name[j - |tag|];
    }
    LastDotIs(t, |st|);
    assert t[..|st|] == st;
    assert t[|st|..] == name[i..];
  }

  /** `TaggedSplit` for a name ending with a dot: the dot and the tag become
      the suffix. */
  lemma TaggedAfterTrailingDot(name: string, tag: string)
    requires tag != "" && '.' !in tag && EndsWithDot(name)
    ensures Stem(Tagged(name, tag)) == name[..|name| - 1] && Suffix(Tagged(name, tag)) == "." + tag
  {
    var t := Tagged(name, tag);
    assert LastDot(name) == |name| - 1;
    assert t == name + tag;
    assert t[|name| - 1] == '.';
    forall j | |name| - 1 < j < |t|
      ensures t[j] != '.'
    {
      assert t[j] == tag[j - |name|];
    }
    LastDotIs(t, |name| - 1);
    assert t[..|name| - 1] == name[..|name| - 1];
    assert t[|name| - 1..] == "." + tag;
  }

  /** `TaggedSplit` for a name with neither a suffix nor a trailing dot: the
      tag is appended and no suffix appears. */
  lemma TaggedWithoutSuffix(name: string, tag: string)
    requires tag != "" && '.' !in tag && !HasSuffix(name) && !EndsWithDot(name)
    ensures Stem(Tagged(name, tag)) == name + tag && Suffix(Tagged(name, tag)) == ""
  {
    var t := Tagged(name, tag);
    assert t == name + tag;
    var i := LastDot(name);
    assert i <= 0 || i == |name| - 1;
    if i == 0 {
      assert t[0] == '.';
      forall j | 0 < j < |t|
        ensures t[j] != '.'
      {
        if j >= |name| { assert t[j] == tag[j - |name|]; } else { assert t[j] == name[j]; }
      }
      LastDotIs(t, 0);
    } else {
      assert i == -1 || |name| == 1;
      forall j | 0 <= j < |t|
        ensures t[j] != '.'
      {
        if j >= |name| { assert t[j] == tag[j - |name|]; } else { assert t[j] == name[j]; }
      }
      LastDotIs(t, -1);
    }
  }

  /** Two names of one length with their last dot at the same place stay
      different after tagging. */
  lemma TaggedInjective(x: string, y: string, tag: string)
    requires |x| == |y| && LastDot(x) == LastDot(y)
    requires Tagged(x, tag) == Tagged(y, tag)
    ensures x == y
  {
    StemSuffixSplit(x);
    StemSuffixSplit(y);
    assert |Stem(x)| == |Stem(y)| by {
      assert HasSuffix(x) == HasSuffix(y);
    }
    ConcatCancel(Stem(x), Suffix(x), Stem(y), Suffix(y), tag);
  }

  /** `a + t + b == c + t + d` with `a` and `c` of one length forces
      `a == c` and `b == d`. */
  lemma ConcatCancel(a: string, b: string, c: string, d: string, t: string)
    requires |a| == |c| && a + t + b == c + t + d
    ensures a == c && b == d
  {
    var s := a + t + b;
    assert a == s[..|a|] == c;
    assert b == s[|a| + |t|..] == d;
  }

  /** `LastDot` is determined by its contract. */
  lemma LastDotIs(s: string, i: int)
    requires -1 <= i < |s|
    requires 0 <= i ==> s[i] == '.'
    requires forall j :: i < j < |s| ==> s[j] != '.'
    ensures LastDot(s) == i
  {
  }

  /** `p.with_name(n)`: replaces the last part. It fails when the path has no
      name, or when `n` is not a single part. */
  function WithName(p: Path, n: string): (r: Result<Path, PathError>)
    ensures r.Success? <==> Name(p) != "" && ValidPart(n)
    ensures r.Success? ==> Parent(r.value) == Parent(p) && Name(r.value) == n
    ensures r.Success? ==> |r.value.parts| == |p.parts|
    ensures Name(p) == "" ==> r == Failure(EmptyName(p))
  {
    if Name(p) == "" then Failure(EmptyName(p))
    else if !ValidPart(n) then Failure(InvalidName(n))
    else Success(Path(p.rooted, p.parts[..|p.parts| - 1] + [n]))
  }

  /** `p.with_stem(s)`: replaces the stem and keeps the current suffix. */
  function WithStem(p: Path, stem: string): (r: Result<Path, PathError>)
    ensures r.Success? <==> Name(p) != "" && ValidPart(stem + Suffix(Name(p)))
    ensures r.Success? ==> Parent(r.value) == Parent(p)
    ensures r.Success? ==> Name(r.value) == stem + Suffix(Name(p))
  {
    WithName(p, stem + Suffix(Name(p)))
  }

  /** `with_stem` keeps the root and every part but the last, and puts the
      new stem with the old suffix last. */
  lemma WithStemParts(p: Path, stem: string)
    requires WithStem(p, stem).Success?
    ensures WithStem(p, stem).value.rooted == p.rooted
    ensures WithStem(p, stem).value.parts == p.parts[..|p.parts| - 1] + [stem + Suffix(Name(p))]
  {
    var r := WithStem(p, stem).value;
    assert r.parts == Parent(r).parts + [Name(r)];
  }
}

=== FILE: procesos.dfy ===
/** The four-step computation of `Procesamiento`: `paso1 = 4a`,
    `paso2 = paso1 + 6`, `paso3 = paso2²`, `paso4 = paso3 - 10`, each step
    taking its predecessor's result, and the `pasoN` accessors that run one
    step with a per-step force flag taken from a caller's map.

    The step executor the steps plug into is not part of this model. `Run`
    gives it the usual memoising reading (a step that has run and is not
    forced returns its stored result; otherwise it runs its predecessor
    unforced, then its own body), but the only facts proved about it are the
    ones the accessors promise: every step returns its closed-form value for
    the pipeline's `a`, from any memo holding only such values. */
module Procesos {
  import opened Results

  datatype StepId = Paso1 | Paso2 | Paso3 | Paso4

  /** The memo of every step that has run: its stored result mapping. */
  type Memo = map<StepId, map<string, int>>

  datatype RunError =
    | MissingInput(name: string)   // the body's parameter was neither given nor produced upstream

  /** The name of a step's output, which is also its key in a force map. */
  function Key(s: StepId): string {
    match s
    case Paso1 => "paso1"
    case Paso2 => "paso2"
    case Paso3 => "paso3"
    case Paso4 => "paso4"
  }

  /** The name of the single parameter of a step's body. */
  function Param(s: StepId): string {
    match s
    case Paso1 => "a"
    case Paso2 => "paso1"
    case Paso3 => "paso2"
    case Paso4 => "paso3"
  }

  /** Position in the chain, counted from `Paso1`. */
  function Depth(s: StepId): nat {
    match s
    case Paso1 => 0
    case Paso2 => 1
    case Paso3 => 2
    case Paso4 => 3
  }

  /** The step given to a step's constructor as its predecessor. */
  function Upstream(s: StepId): (r: Option<StepId>)
    ensures r.None? <==> Depth(s) == 0
    ensures r.Some? ==> Depth(r.value) + 1 == Depth(s)
  {
    match s
    case Paso1 => None
    case Paso2 => Some(Paso1)
    case Paso3 => Some(Paso2)
    case Paso4 => Some(Paso3)
  }

  /** The arithmetic of each step's body on its one argument. */
  function Body(s: StepId, x: int): int {
    match s
    case Paso1 => x * 4
    case Paso2 => x + 6
    case Paso3 => x * x
    case Paso4 => x - 10
  }

  /** A step's body called with the named values `inputs`: it takes its own
      parameter and returns a mapping with the single key `Key(s)`. */
  function RunBody(s: StepId, inputs: map<string, int>): (r: Result<map<string, int>, RunError>)
    ensures r.Failure? <==> Param(s) !in inputs
    ensures r.Failure? ==> r.error == MissingInput(Param(s))
    ensures r.Success? ==> r.value.Keys == {Key(s)} && r.value[Key(s)] == Body(s, inputs[Param(s)])
  {
    if Param(s) !in inputs then Failure(MissingInput(Param(s)))
    else Success(map[Key(s) := Body(s, inputs[Param(s)])])
  }

  /** The value step `s` computes from `a`, written out without the chain. */
  function ClosedForm(s: StepId, a: int): int {
    match s
    case Paso1 => 4 * a
    case Paso2 => 4 * a + 6
    case Paso3 => (4 * a + 6) * (4 * a + 6)
    case Paso4 => (4 * a + 6) * (4 * a + 6) - 10
  }

  /** The value step `s` computes from `a` by running every body from
      `Paso1` up to `s`. */
  function Chain(s: StepId, a: int): int
    decreases Depth(s)
  {
    match Upstream(s)
    case None => Body(s, a)
    case Some(t) => Body(s, Chain(t, a))
  }

  /** One execution of step `s`. A step found in the memo and not forced
      returns its stored result. Otherwise its predecessor runs unforced,
      the predecessor's outputs are merged over `inputs`, the body runs on
      the result, and a success is stored. A failure stores nothing. */
  function Run(s: StepId, inputs: map<string, int>, force: bool, memo: Memo): (r: (Result<map<string, int>, RunError>, Memo))
    ensures r.0.Success? ==> r.0.value.Keys == {Key(s)} || (!force && s in memo && r.0.value == memo[s])
    decreases Depth(s)
  {
    if !force && s in memo then (Success(memo[s]), memo)
    else
      var (merged, memo1) := RunUpstream(s, inputs, memo);
      if merged.Failure? then (Failure(merged.error), memo1)
      else
        var out := RunBody(s, merged.value);
        if out.Success? then (out, memo1[s := out.value]) else (out, memo1)
  }

  /** The inputs step `s`'s body sees: `inputs` alone for the first step,
      otherwise `inputs` with the unforced predecessor's outputs merged in. */
  function RunUpstream(s: StepId, inputs: map<string, int>, memo: Memo): (r: (Result<map<string, int>, RunError>, Memo))
    ensures Upstream(s).None? ==> r == (Success(inputs), memo)
    ensures Upstream(s).Some? ==> (r.0.Success? <==> Run(Upstream(s).value, inputs, false, memo).0.Success?)
    ensures r.0.Success? ==> inputs.Keys <= r.0.value.Keys
    decreases Depth(s), 0
  {
    match Upstream(s)
    case None => (Success(inputs), memo)
    case Some(t) =>
      var (up, memo1) := Run(t, inputs, false, memo);
      if up.Failure? then (Failure(up.error), memo1) else (Success(inputs + up.value), memo1)
  }

  /** Every result stored in the memo is the closed-form value for `a`. */
  predicate Consistent(memo: Memo, a: int) {
    forall s :: s in memo ==> memo[s] == map[Key(s) := ClosedForm(s, a)]
  }

  /** Each step's parameter is the output of its predecessor, and the steps
      form one chain from `Paso1`, the only step without a predecessor. */
  lemma ChainIsLinear()
    ensures forall s :: Upstream(s).Some? ==> Param(s) == Key(Upstream(s).value)
    ensures forall s :: Upstream(s).None? <==> s == Paso1
    ensures forall s, t :: Key(s) == Key(t) ==> s == t
    ensures Param(Paso1) !in {Key(Paso1), Key(Paso2), Key(Paso3), Key(Paso4)}
  {
  }

  /** Running the bodies along the chain computes the closed form. */
  lemma {:induction false} ChainComputesClosedForm(s: StepId, a: int)
    ensures Chain(s, a) == ClosedForm(s, a)
    decreases Depth(s)
  {
    BodyOfClosedForm(s, a);
    match Upstream(s)
    case None =>
    case Some(t) => ChainComputesClosedForm(t, a);
  }

  /** One body applied to the closed form of the predecessor (or to `a` for
      the first step) gives the step's closed form. */
  lemma BodyOfClosedForm(s: StepId, a: int)
    ensures Upstream(s).None? ==> Body(s, a) == ClosedForm(s, a)
    ensures Upstream(s).Some? ==> Body(s, ClosedForm(Upstream(s).value, a)) == ClosedForm(s, a)
  {
  }

  /** Storing a closed-form result keeps a memo consistent. */
  lemma ConsistentStore(memo: Memo, a: int, s: StepId)
    requires Consistent(memo, a)
    ensures Consistent(memo[s := map[Key(s) := ClosedForm(s, a)]], a)
  {
  }

  /** With `a` among the inputs and a memo holding only closed-form values,
      any run of any step, forced or not, returns the one-entry mapping
      holding its closed-form value, and the memo stays consistent. */
  lemma {:induction false} RunClosedForm(s: StepId, inputs: map<string, int>, force: bool, memo: Memo, a: int)
    requires "a" in inputs && inputs["a"] == a
    requires Consistent(memo, a)
    ensures Run(s, inputs, force, memo).0 == Success(map[Key(s) := ClosedForm(s, a)])
    ensures Consistent(Run(s, inputs, force, memo).1, a)
    decreases Depth(s), 1
  {
    if !force && s in memo {
    } else {
      UpstreamClosedForm(s, inputs, memo, a);
      var (merged, memo1) := RunUpstream(s, inputs, memo);
      var out := RunBody(s, merged.value);
      BodyOfClosedForm(s, a);
      assert out == Success(map[Key(s) := ClosedForm(s, a)]);
      ConsistentStore(memo1, a, s);
    }
  }

  /** Under the same conditions, the inputs a step's body sees hold its
      parameter, with the value `a` for the first step and the predecessor's
      closed form for the others. */
  lemma {:induction false} UpstreamClosedForm(s: StepId, inputs: map<string, int>, memo: Memo, a: int)
    requires "a" in inputs && inputs["a"] == a
    requires Consistent(memo, a)
    ensures RunUpstream(s, inputs, memo).0.Success?
    ensures Param(s) in RunUpstream(s, inputs, memo).0.value
    ensures Upstream(s).None? ==> RunUpstream(s, inputs, memo).0.value[Param(s)] == a
    ensures Upstream(s).Some? ==>
              RunUpstream(s, inputs, memo).0.value[Param(s)] == ClosedForm(Upstream(s).value, a)
    ensures Consistent(RunUpstream(s, inputs, memo).1, a)
    decreases Depth(s), 0
  {
    match Upstream(s)
    case None =>
    case Some(t) =>
      RunClosedForm(t, inputs, false, memo, a);
      var up := Run(t, inputs, false, memo).0;
      assert Param(s) == Key(t);
      assert (inputs + up.value)[Key(t)] == ClosedForm(t, a);
  }

  /** Without `a`, a step none of whose chain has run fails, naming the
      first step's missing parameter, and stores nothing. */
  lemma {:induction false} RunMissingA(s: StepId, inputs: map<string, int>, force: bool)
    requires "a" !in inputs
    ensures Run(s, inputs, force, map[]) == (Failure(MissingInput("a")), map[])
    decreases Depth(s)
  {
    match Upstream(s)
    case None =>
    case Some(t) => RunMissingA(t, inputs, false);
  }

  // --------------------------------------------------------- the pipeline

  /** `Procesamiento(cache, cache_path, a, force_execution)` with the memo of
      its four steps. The constructor's force map is stored and never read. */
  datatype Procesamiento = Procesamiento(
    cache: bool,
    cachePath: string,
    a: int,
    forceExecution: map<string, bool>,
    memo: Memo)

  /** A fresh pipeline: no step has run. */
  function NewProcesamiento(cache: bool, cachePath: string, a: int, forceExecution: map<string, bool>): (p: Procesamiento)
    ensures p.cache == cache && p.cachePath == cachePath && p.a == a && p.forceExecution == forceExecution
    ensures p.memo == map[]
  {
    Procesamiento(cache, cachePath, a, forceExecution, map[])
  }

  /** `d.setdefault(k, v)`: the map with `k` defaulted to `v`, and the value
      at `k` afterwards. */
  function SetDefault<V>(m: map<string, V>, k: string, v: V): (r: (map<string, V>, V))
    ensures r.0.Keys == m.Keys + {k}
    ensures forall j :: j in m ==> r.0[j] == m[j]
    ensures r.1 == r.0[k]
    ensures k !in m ==> r.1 == v
    ensures r.0 == m[k := r.1]
  {
    if k in m then (m, m[k]) else (m[k := v], v)
  }

  /** Setting a default twice is setting it once, whatever the second default. */
  lemma SetDefaultIdempotent<V>(m: map<string, V>, k: string, v: V, w: V)
    ensures SetDefault(SetDefault(m, k, v).0, k, w) == (SetDefault(m, k, v).0, SetDefault(m, k, v).1)
  {
  }

  /** What an accessor call returns, the caller's force map afterwards, and
      the pipeline afterwards. */
  datatype Access = Access(result: Result<map<string, int>, RunError>, forces: map<string, bool>, proc: Procesamiento)

  /** `p.pasoN(force_execution)`: defaults the step's force flag to false in
      the map (a fresh empty map when none is given) and runs the step with
      the pipeline's `a`. */
  function Call(p: Procesamiento, s: StepId, forceExecution: Option<map<string, bool>>): (r: Access)
    ensures r.proc.a == p.a && r.proc.cache == p.cache && r.proc.cachePath == p.cachePath
    ensures r.proc.forceExecution == p.forceExecution
  {
    var given := if forceExecution.None? then map[] else forceExecution.value;
    var (forces, force) := SetDefault(given, Key(s), false);
    var (result, memo) := Run(s, map["a" := p.a], force, p.memo);
    Access(result, forces, p.(memo := memo))
  }

  /** The accessor called with the very map the pipeline was built with, as
      the tests do: the defaulted flag is written into the pipeline's own
      map, and the step runs as with a separate copy of that map. */
  function CallShared(p: Procesamiento, s: StepId): (r: Access)
    ensures r.proc.a == p.a && r.proc.cache == p.cache && r.proc.cachePath == p.cachePath
    ensures r.proc.forceExecution == r.forces
    ensures r.forces.Keys == p.forceExecution.Keys + {Key(s)}
    ensures forall j :: j in p.forceExecution ==> r.forces[j] == p.forceExecution[j]
    ensures r.result == Call(p, s, Some(p.forceExecution)).result
    ensures r.proc.memo == Call(p, s, Some(p.forceExecution)).proc.memo
  {
    var c := Call(p, s, Some(p.forceExecution));
    c.(proc := c.proc.(forceExecution := c.forces))
  }

  /** Passing `None` behaves as passing an empty map, which ends up holding
      just this step's default. */
  lemma NoneIsEmptyMap(p: Procesamiento, s: StepId)
    ensures Call(p, s, None) == Call(p, s, Some(map[]))
    ensures Call(p, s, None).forces == map[Key(s) := false]
  {
  }

  /** After an accessor, the caller's map holds this step's key: an existing
      flag is kept and a missing one becomes false. No other key is added or
      changed. */
  lemma AccessorForces(p: Procesamiento, s: StepId, m: map<string, bool>)
    ensures Call(p, s, Some(m)).forces.Keys == m.Keys + {Key(s)}
    ensures forall j :: j in m ==> Call(p, s, Some(m)).forces[j] == m[j]
    ensures Key(s) !in m ==> Call(p, s, Some(m)).forces[Key(s)] == false
  {
  }

  /** Every accessor, forced or not and in any order, returns the one-entry
      mapping holding its step's closed-form value for the pipeline's `a`, as
      long as the memo holds only such values; the memo keeps that property. */
  lemma AccessorClosedForm(p: Procesamiento, s: StepId, forceExecution: Option<map<string, bool>>)
    requires Consistent(p.memo, p.a)
    ensures Call(p, s, forceExecution).result == Success(map[Key(s) := ClosedForm(s, p.a)])
    ensures Consistent(Call(p, s, forceExecution).proc.memo, p.a)
  {
    var given := if forceExecution.None? then map[] else forceExecution.value;
    var force := SetDefault(given, Key(s), false).1;
    RunClosedForm(s, map["a" := p.a], force, p.memo, p.a);
  }

  /** The force map every test passes. */
  function TestForces(): map<string, bool> {
    map["paso4" := false, "paso1" := false]
  }

  /** One test: the accessor of step `s` called with the test's map on a
      pipeline with `a = 5` and a consistent memo. It returns the closed form
      at 5, keeps the memo consistent, and leaves the map with its two
      entries plus a false flag for `s`. */
  lemma TestCall(p: Procesamiento, s: StepId)
    requires p.a == 5 && Consistent(p.memo, 5)
    ensures Call(p, s, Some(TestForces())).result == Success(map[Key(s) := ClosedForm(s, 5)])
    ensures Call(p, s, Some(TestForces())).proc.a == 5
    ensures Consistent(Call(p, s, Some(TestForces())).proc.memo, 5)
    ensures Call(p, s, Some(TestForces())).forces == TestForces()[Key(s) := false]
  {
    AccessorClosedForm(p, s, Some(TestForces()));
    var flag := SetDefault(TestForces(), Key(s), false).1;
    assert flag == false by {
      assert forall j :: j in TestForces() ==> TestForces()[j] == false;
    }
  }

  /** One test with the pipeline built on the test's own map: besides what
      `TestCall` states, the pipeline's map gains the false flag for `s`. */
  lemma TestSharedCall(p: Procesamiento, s: StepId)
    requires p.a == 5 && Consistent(p.memo, 5) && p.forceExecution == TestForces()
    ensures CallShared(p, s).result == Success(map[Key(s) := ClosedForm(s, 5)])
    ensures CallShared(p, s).proc.forceExecution == TestForces()[Key(s) := false]
    ensures Consistent(CallShared(p, s).proc.memo, 5)
  {
    TestCall(p, s);
  }

  /** A test's pipeline built fresh, as in tests/test_procesos.py:94-95,
      with nothing to reload: any accessor returns its closed form at 5 and
      writes the step's false flag into the test's map. */
  lemma FreshTestPipeline(cachePath: string, s: StepId)
    ensures var p := NewProcesamiento(true, cachePath, 5, TestForces());
            && CallShared(p, s).result == Success(map[Key(s) := ClosedForm(s, 5)])
            && CallShared(p, s).proc.forceExecution == TestForces()[Key(s) := false]
  {
    var p := NewProcesamiento(true, cachePath, 5, TestForces());
    TestSharedCall(p, s);
  }

  /** The four tests in their order (`paso1`, `paso2`, `paso4`, `paso3`) with
      `a = 5`, each continuing from the pipeline the previous one left (the
      snapshot reload between tests is taken to give back that pipeline), and
      starting from a fresh pipeline or from any reloaded one whose memo
      holds only values for `a = 5`: each returns its step's closed form at 5
      (20, 26, 666 and 676 by `ExpectedValues`), and each test's map keeps
      its two entries and gains only its own step's flag. */
  lemma TestScenario(p0: Procesamiento)
    requires p0.a == 5 && Consistent(p0.memo, 5)
    ensures var c1 := Call(p0, Paso1, Some(TestForces()));
            var c2 := Call(c1.proc, Paso2, Some(TestForces()));
            var c3 := Call(c2.proc, Paso4, Some(TestForces()));
            var c4 := Call(c3.proc, Paso3, Some(TestForces()));
            c1.result == Success(map[Key(Paso1) := ClosedForm(Paso1, 5)])
            && c2.result == Success(map[Key(Paso2) := ClosedForm(Paso2, 5)])
            && c3.result == Success(map[Key(Paso4) := ClosedForm(Paso4, 5)])
            && c4.result == Success(map[Key(Paso3) := ClosedForm(Paso3, 5)])
            && c1.forces == TestForces()
            && c2.forces == TestForces()[Key(Paso2) := false]
            && c3.forces == TestForces()
            && c4.forces == TestForces()[Key(Paso3) := false]
  {
    var c1 := Call(p0, Paso1, Some(TestForces()));
    TestCall(p0, Paso1);
    var c2 := Call(c1.proc, Paso2, Some(TestForces()));
    TestCall(c1.proc, Paso2);
    var c3 := Call(c2.proc, Paso4, Some(TestForces()));
    TestCall(c2.proc, Paso4);
    TestCall(c3.proc, Paso3);
    TestForcesHoldFirstAndLast();
  }

  /** The test's map already holds false flags for `paso1` and `paso4`. */
  lemma TestForcesHoldFirstAndLast()
    ensures TestForces()[Key(Paso1) := false] == TestForces()
    ensures TestForces()[Key(Paso4) := false] == TestForces()
  {
  }

  /** The expected values of the tests are the closed forms at `a = 5`. */
  lemma ExpectedValues()
    ensures Key(Paso1) == "paso1" && Key(Paso2) == "paso2" && Key(Paso3) == "paso3" && Key(Paso4) == "paso4"
    ensures ClosedForm(Paso1, 5) == 20 && ClosedForm(Paso2, 5) == 26
    ensures ClosedForm(Paso3, 5) == 676 && ClosedForm(Paso4, 5) == 666
    ensures forall s :: Chain(s, 5) == ClosedForm(s, 5)
  {
    forall s {
      ChainComputesClosedForm(s, 5);
    }
  }
}

=== FILE: results.dfy ===
/** Optional values and results with failures, shared by the other modules.
    `Result` is failure-compatible, so it can be used with `:-`. */
module Results {

  /** A value that may be absent, like Python's `None`-or-value fields. */
  datatype Option<+T> = None | Some(value: T)

  /** Either a computed value or the error that the computation raised. */
  datatype Result<+T, +E> = Success(value: T) | Failure(error: E) {

    predicate IsFailure() {
      Failure?
    }

    function PropagateFailure<U>(): Result<U, E>
      requires Failure?
    {
      Failure(error)
    }

    function Extract(): T
      requires Success?
    {
      value
    }
  }
}
